=== FILE: README.md ===
# MixinPrebaker, modelled in Dafny

`MixinPrebaker` bakes Mixin transformations into a jar ahead of time, so that a
development environment sees already-merged classes. It reads the input jar
through a `JarInputStream`, entry by entry. That stream never yields a leading
`META-INF/` directory and `META-INF/MANIFEST.MF`, so these are not in the
output. Of the entries it does yield, it drops any old applied-configs
manifest. It hands every `.class` entry to the Mixin transformer. When the
transformer rewrote a class, it strips the transformer's internal "meta"
annotations from the result ("desprinkling"). It copies every other entry it
reads unchanged. Last, it writes the manifest
`.fabric-applied-mixin-configs`, the newline-joined list of applied Mixin
configurations. At game start, `onFabricLoad` reads that manifest back, and
`addConfiguration` then skips configurations that were already baked.

The model has five modules:

- `Basics` (`basics.dfy`): `Option`, `Result` and `Bytes`.
- `Strings` (`strings.dfy`): the `java.lang.String` operations used.
  These are `startsWith`, `endsWith`, `replace(char, char)`, joining and
  `split("\n")`, including Java's rule that drops trailing empty strings.
- `Desprinkle` (`desprinkle.dfy`): the annotation filter. It works on an
  abstract class structure with class, field and method annotations.
  ASM's `ClassReader`/`ClassWriter` become an abstract `Codec`. A read that
  fails stands for `ClassReader` throwing on malformed bytes.
- `Registry` (`registry.dfy`): the static `appliedMixinConfigs` list, modelled
  as `Option<seq<string>>` with `None` for null. The calls forwarded to
  `Mixins.addConfiguration` are recorded as a trace. The module also holds the
  bake-time list, serialisation and read-back.
- `Prebaker` (`prebaker.dfy`): the entry loop of `main` and the manifest.
  The collaborators are parameters bundled in `Env`:
  - the transformer is a function returning `Unchanged | Changed(bytes)`;
    this tag stands for the reference-identity test `classIn != classOut`;
  - the class codec;
  - UTF-8 encoding;
  - the instant `Instant.now()` returns.

  A bake returns the output entries, the transformer calls made, and the
  "Transformed ..." console lines. The loop also tracks the names already
  written to the output stream. It aborts at the first entry that either has
  a rewrite the class reader cannot read, or repeats a name the stream has
  already accepted (`putNextEntry` refuses it). The error names that entry.

Behaviour the model follows, where a reader might expect otherwise:

- `addConfiguration` never adds to the list. Registering an absent identifier
  twice therefore forwards it twice (`Registry.AddTwiceForwardsTwice`).
- The bake list is not deduplicated. `main` forwards every element of it
  directly, duplicates included (`Registry.StartBake`).
- Deriving a class name is not injective: `a/b.class` and `a.b.class` both
  give `a.b` (`Prebaker.ClassNameCollision`). It is injective on paths with no
  `.` before the suffix (`Prebaker.ClassNameInjective`).
- A manifest holding only newlines reads back as an empty list. An empty
  manifest reads back as `[""]`. Only a non-empty list of non-empty,
  newline-free identifiers is sure to survive the round trip
  (`Strings.SplitJoinRoundTrip` states the exact condition).
- Class entries get a fresh timestamp and keep their comment. Other entries
  are copied with all their metadata. The manifest entry has neither a comment
  nor a timestamp of its own.

## Model

| member | source | states |
|---|---|---|
| Prebaker.ClassName | src/main/java/net/fabricmc/base/util/MixinPrebaker.java:180-182 | the class name is 6 characters shorter than the entry path; each character is the path's, with `/` turned into `.`; it contains no `/` |
| Prebaker.ClassNameCollision | src/main/java/net/fabricmc/base/util/MixinPrebaker.java:182 | two different class entries (`a/b.class`, `a.b.class`) yield the same class name |
| Prebaker.ClassNameInjective | src/main/java/net/fabricmc/base/util/MixinPrebaker.java:182 | entries with no `.` before the suffix and equal class names are the same entry |
| Prebaker.ManifestIsNotAClass | src/main/java/net/fabricmc/base/util/MixinPrebaker.java:176-180 | the manifest name does not end in `.class`, so the drop test and the class test never both apply |
| Prebaker.Kept | src/main/java/net/fabricmc/base/util/MixinPrebaker.java:176-178 | no kept entry is named like the manifest, and an input entry is kept exactly when it is not |
| Prebaker.ProcessEntryWrites | src/main/java/net/fabricmc/base/util/MixinPrebaker.java:176-197 | one loop pass writes nothing for the old manifest and exactly one entry otherwise; it calls the transformer only for class entries and prints only for changed ones |
| Prebaker.ProcessUnchangedClass | src/main/java/net/fabricmc/base/util/MixinPrebaker.java:183-193 | a class the transformer leaves alone is written with its original bytes and a fresh timestamp |
| Prebaker.ProcessChangedClass | src/main/java/net/fabricmc/base/util/MixinPrebaker.java:183-193 | a class the transformer rewrites is written as the desprinkled rewrite, with a "Transformed" line |
| Prebaker.ProcessEntriesFails | src/main/java/net/fabricmc/base/util/MixinPrebaker.java:175-196 | the loop fails if and only if some kept entry has an unreadable rewrite or a name already written; the error names the first such entry, as an unreadable class when both apply |
| Prebaker.ProcessEntriesNames | src/main/java/net/fabricmc/base/util/MixinPrebaker.java:188-195 | a successful loop writes no name twice, and none the stream held before |
| Prebaker.ProcessEntriesWrites | src/main/java/net/fabricmc/base/util/MixinPrebaker.java:175-198 | the output pairs up with the non-manifest input entries in order: same names; other entries verbatim; class entries with original or desprinkled bytes as the transformer answered |
| Prebaker.ProcessEntriesCalls | src/main/java/net/fabricmc/base/util/MixinPrebaker.java:180-183 | the transformer is called once per class entry, in input order, with the class name in both name slots and the entry's bytes, and never for other entries |
| Prebaker.ProcessEntriesLog | src/main/java/net/fabricmc/base/util/MixinPrebaker.java:184-186 | one "Transformed <name>" line per changed class, in order, none for unchanged classes |
| Prebaker.Bake | src/main/java/net/fabricmc/base/util/MixinPrebaker.java:175-201 | fails iff some kept entry has an unreadable rewrite or repeats an earlier kept name, reporting the first; otherwise the output has one more entry than the non-manifest input; only the last entry carries the manifest name, holding the joined list; the others are as the loop writes them; no two output entries share a name |
| Prebaker.RepeatedNameAborts | src/main/java/net/fabricmc/base/util/MixinPrebaker.java:194-196 | two resources both named `r.txt` abort the bake with a duplicate-entry error naming `r.txt` |
| Prebaker.Prebake | src/main/java/net/fabricmc/base/util/MixinPrebaker.java:156-201 | the registry becomes the bake list; every element is forwarded once more; the manifest written is that list, serialised |
| Prebaker.ManifestReadsBack | src/main/java/net/fabricmc/base/util/MixinPrebaker.java:200-201 | with storable mod identifiers, loading the baked manifest restores exactly the bake list |
| Prebaker.ThreeEntryBake | src/main/java/net/fabricmc/base/util/MixinPrebaker.java:175-201 | on a jar of an unchanged class, a rewritten class with two meta annotations and one ordinary one, and a resource, the output and traces are exactly as expected |
| Desprinkle.Strip | src/main/java/net/fabricmc/base/util/MixinPrebaker.java:52-57 | no annotation that survives the filter is sprinkled; the survivors are a sub-multiset of the input, so none is added or duplicated, and there are no more of them than inputs |
| Desprinkle.StripMembers | src/main/java/net/fabricmc/base/util/MixinPrebaker.java:108-111 | an annotation survives iff it was present and its descriptor does not start with the meta prefix |
| Desprinkle.StripAppend | src/main/java/net/fabricmc/base/util/MixinPrebaker.java:90-96 | filtering distributes over concatenation, so kept annotations stay in order |
| Desprinkle.StripLength | src/main/java/net/fabricmc/base/util/MixinPrebaker.java:66-72 | exactly as many annotations survive as are not sprinkled, duplicates included |
| Desprinkle.StripUnchanged | src/main/java/net/fabricmc/base/util/MixinPrebaker.java:52-57 | a list is returned unchanged iff it has no sprinkled annotation |
| Desprinkle.DesprinkleField | src/main/java/net/fabricmc/base/util/MixinPrebaker.java:47-59 | a field keeps access, name and descriptor and loses only its sprinkled annotations |
| Desprinkle.DesprinkleMethod | src/main/java/net/fabricmc/base/util/MixinPrebaker.java:61-73 | a method keeps access, name, descriptor and code and loses only its sprinkled annotations |
| Desprinkle.DesprinkleClass | src/main/java/net/fabricmc/base/util/MixinPrebaker.java:75-97 | the result is clean at every scope; fields and methods keep their number, order, names, descriptors and code |
| Desprinkle.DesprinkleBytes | src/main/java/net/fabricmc/base/util/MixinPrebaker.java:114-121 | desprinkling bytes fails exactly when the class reader rejects them |
| Desprinkle.DesprinkleIdempotent | src/main/java/net/fabricmc/base/util/MixinPrebaker.java:114-121 | desprinkling a desprinkled class changes nothing |
| Desprinkle.DesprinkleUnchanged | src/main/java/net/fabricmc/base/util/MixinPrebaker.java:75-97 | a class is returned unchanged iff no class, field or method annotation is sprinkled |
| Desprinkle.DesprinkleBytesIdempotent | src/main/java/net/fabricmc/base/util/MixinPrebaker.java:114-121 | with a codec that reads back what it writes, desprinkled bytes read as a clean class, and desprinkling them again gives the same bytes |
| Registry.AddConfiguration | src/main/java/net/fabricmc/base/util/MixinPrebaker.java:102-106 | forwards the identifier when the list is null or lacks it, not when the list holds it; the list is never changed |
| Registry.AddConfigurationsForwards | src/main/java/net/fabricmc/base/util/MixinPrebaker.java:102-106 | registering a sequence forwards all of it when the list is null, else exactly the identifiers not in the list, in order |
| Registry.AddTwiceForwardsTwice | src/main/java/net/fabricmc/base/util/MixinPrebaker.java:100-106 | an identifier absent from the list is forwarded on every registration |
| Registry.BakeConfigs | src/main/java/net/fabricmc/base/util/MixinPrebaker.java:156-162 | the bake list has the three fixed identifiers, then common, client and server in that order, with 3 + the three lengths elements and every duplicate kept |
| Registry.StartBake | src/main/java/net/fabricmc/base/util/MixinPrebaker.java:156-163 | the list becomes the bake list and the trace grows by exactly that list |
| Registry.OnFabricLoad | src/main/java/net/fabricmc/base/util/MixinPrebaker.java:123-135 | without the resource nothing changes; with it the list is set, its identifiers hold no newline, and newline-free text loads as one identifier; nothing is forwarded |
| Registry.RoundTrip | src/main/java/net/fabricmc/base/util/MixinPrebaker.java:128 | reading back the serialised list returns it when it is non-empty and storable; the empty list reads back as `[""]` |
| Registry.LoadBakedManifest | src/main/java/net/fabricmc/base/util/MixinPrebaker.java:124-128 | loading a baked manifest restores the bake list, after which exactly the unbaked identifiers are forwarded |
| Strings.JavaSplit | src/main/java/net/fabricmc/base/util/MixinPrebaker.java:128 | no piece holds the separator; text without the separator splits to itself alone |
| Strings.SplitJoinRoundTrip | src/main/java/net/fabricmc/base/util/MixinPrebaker.java:128 | for separator-free pieces, split after join gives the pieces back iff there is one piece or the last is non-empty; an empty list comes back as `[""]` |
| Strings.ReplaceChar | src/main/java/net/fabricmc/base/util/MixinPrebaker.java:182 | every occurrence of the character is replaced, nothing else changes, and the length is kept |

## Left out

- Reading and writing class bytes with ASM (`ClassReader`, `ClassWriter`) is an abstract codec. Parameter and type annotations are not filtered by the source and are not modelled.
- The Mixin transformer is an uninterpreted function. Its own failures are not modelled; only a rewrite the class reader rejects aborts a bake.
- Jar stream I/O is not modelled: entry sizes, compression, stream closing, and `IOException` wrapped into `RuntimeException`. UTF-8 encoding is an abstract function.
- Bootstrap wiring is not modelled: `LaunchClassLoader`, the blackboard, `MixinBootstrap`, the environment tweaker and `MixinLoader` discovery. The common, client and server lists are inputs.
- Command-line checking (fewer than three arguments prints usage) is not modelled, and neither is mapping the mod jar arguments to files.
- `onFabricLoad`'s classpath lookup and its `IOException` warning are not modelled. The resource is an optional text.
- Console output beyond the "Transformed" lines is not modelled.
- Prebaker.Bake: on failure, only the error is returned. Three things the source has already done by then are missing: the entries written before the failing entry, the transformer calls made for earlier classes and for the failing one, and the "Transformed" lines printed so far. That includes the failing class's own line. It is printed before `desprinkle` throws, and before `putNextEntry` refuses a repeated class name.
- The input entries `es` are the sequence `JarInputStream.getNextJarEntry` yields. The `JarInputStream` constructor consumes a leading `META-INF/` directory entry and `META-INF/MANIFEST.MF`, so they are never in `es`. The `JarOutputStream` is built without a manifest, so both are absent from the output jar. The model takes `es` as given and does not model the input jar's full entry list.
- The clock: `Instant.now()` is read once per run rather than once per class entry.

=== FILE: basics.dfy ===
/** Small value types shared by the rest of the model. */
module Basics {

  /** A value that may be absent; stands in for a Java reference that may be null. */
  datatype Option<+T> = None | Some(value: T)

  /** The outcome of an operation that can fail with an error of type E. */
  datatype Result<+T, +E> = Ok(value: T) | Err(error: E)

  /** Raw archive payloads and class files, byte by byte. */
  type Bytes = seq<bv8>
}

=== FILE: desprinkle.dfy ===
/** "Desprinkling": removing the Mixin transformer's internal metadata
    annotations from a transformed class, at class, field and method scope.
    A class is modelled by the structure the ASM visitors walk over, not by
    its bytes; reading and writing bytes is an abstract codec. */
module Desprinkle {
  import opened Basics
  import Strings

  /** Descriptor prefix of the annotations the Mixin transformer leaves behind. */
  const MetaPrefix: string := "Lorg/spongepowered/asm/mixin/transformer/meta"

  /** An annotation attached to a class, field or method. */
  datatype Annotation = Annotation(desc: string, visible: bool)

  datatype Field = Field(access: int, name: string, desc: string, annotations: seq<Annotation>)

  datatype Method = Method(access: int, name: string, desc: string, annotations: seq<Annotation>, code: Bytes)

  datatype ClassFile = ClassFile(name: string, annotations: seq<Annotation>, fields: seq<Field>, methods: seq<Method>)

  /** ClassReader (which fails on malformed input) and ClassWriter. */
  datatype Codec = Codec(read: Bytes -> Option<ClassFile>, write: ClassFile -> Bytes)

  /** An annotation is "sprinkled" when its descriptor starts with the meta prefix. */
  predicate IsSprinkled(desc: string) {
    Strings.StartsWith(desc, MetaPrefix)
  }

  predicate NoSprinkled(anns: seq<Annotation>) {
    forall i :: 0 <= i < |anns| ==> !IsSprinkled(anns[i].desc)
  }

  /** No annotation at class, field or method scope is sprinkled. */
  predicate Clean(c: ClassFile) {
    && NoSprinkled(c.annotations)
    && (forall i :: 0 <= i < |c.fields| ==> NoSprinkled(c.fields[i].annotations))
    && (forall i :: 0 <= i < |c.methods| ==> NoSprinkled(c.methods[i].annotations))
  }

  /** The annotations a desprinkling visitor lets through to the writer:
      `visitAnnotation` returns null for a sprinkled descriptor, which drops
      the annotation with all of its values. */
  function Strip(anns: seq<Annotation>): (r: seq<Annotation>)
    ensures |r| <= |anns|
    ensures NoSprinkled(r)
    ensures multiset(r) <= multiset(anns)
  {
    if |anns| == 0 then []
    else
      assert anns == [anns[0]] + anns[1..];
      if IsSprinkled(anns[0].desc) then Strip(anns[1..])
      else [anns[0]] + Strip(anns[1..])
  }

  /** The field visitor filters only the field's own annotations. */
  function DesprinkleField(f: Field): (r: Field)
    ensures r.access == f.access && r.name == f.name && r.desc == f.desc
    ensures NoSprinkled(r.annotations)
    ensures r.annotations == Strip(f.annotations)
  {
    f.(annotations := Strip(f.annotations))
  }

  /** The method visitor filters only the method's own annotations; the code
      passes through untouched. */
  function DesprinkleMethod(m: Method): (r: Method)
    ensures r.access == m.access && r.name == m.name && r.desc == m.desc && r.code == m.code
    ensures NoSprinkled(r.annotations)
    ensures r.annotations == Strip(m.annotations)
  {
    m.(annotations := Strip(m.annotations))
  }

  /** The whole class through `DesprinklingClassVisitor`: sprinkled annotations
      vanish at every scope, and fields and methods keep their number, order,
      access flags, names, descriptors and code. */
  function DesprinkleClass(c: ClassFile): (r: ClassFile)
    ensures Clean(r)
    ensures r.name == c.name
    ensures r.annotations == Strip(c.annotations)
    ensures |r.fields| == |c.fields|
    ensures forall i :: 0 <= i < |c.fields| ==>
      && r.fields[i].access == c.fields[i].access
      && r.fields[i].name == c.fields[i].name
      && r.fields[i].desc == c.fields[i].desc
      && r.fields[i].annotations == Strip(c.fields[i].annotations)
    ensures |r.methods| == |c.methods|
    ensures forall i :: 0 <= i < |c.methods| ==>
      && r.methods[i].access == c.methods[i].access
      && r.methods[i].name == c.methods[i].name
      && r.methods[i].desc == c.methods[i].desc
      && r.methods[i].code == c.methods[i].code
      && r.methods[i].annotations == Strip(c.methods[i].annotations)
  {
    ClassFile(c.name, Strip(c.annotations),
      seq(|c.fields|, i requires 0 <= i < |c.fields| => DesprinkleField(c.fields[i])),
      seq(|c.methods|, i requires 0 <= i < |c.methods| => DesprinkleMethod(c.methods[i])))
  }

  /** `desprinkle(cls)`: read, filter, write. A read failure is the
      ClassReader exception and yields None. */
  function DesprinkleBytes(codec: Codec, cls: Bytes): (r: Option<Bytes>)
    ensures r.None? <==> codec.read(cls).None?
  {
    match codec.read(cls)
    case None => None
    case Some(c) => Some(codec.write(DesprinkleClass(c)))
  }

  /** Filtering distributes over concatenation, so the kept annotations stay
      in their original relative order. */
  lemma {:induction false} StripAppend(a: seq<Annotation>, b: seq<Annotation>)
    ensures Strip(a + b) == Strip(a) + Strip(b)
  {
    if |a| == 0 {
      assert a + b == b;
    } else {
      var c := a + b;
      assert c[0] == a[0];
      assert c[1..] == a[1..] + b;
      var rest := Strip(a[1..] + b);
      assert rest == Strip(a[1..]) + Strip(b) by {
        StripAppend(a[1..], b);
      }
      if IsSprinkled(a[0].desc) {
        calc {
          Strip(c);
          Strip(c[1..]);
          rest;
        }
      } else {
        calc {
          Strip(c);
          [a[0]] + Strip(c[1..]);
          [a[0]] + rest;
          [a[0]] + (Strip(a[1..]) + Strip(b));
          ([a[0]] + Strip(a[1..])) + Strip(b);
        }
      }
    }
  }

  /** An annotation survives exactly when it was there and is not sprinkled. */
  lemma {:induction false} StripMembers(anns: seq<Annotation>, a: Annotation)
    ensures a in Strip(anns) <==> a in anns && !IsSprinkled(a.desc)
  {
    if |anns| > 0 {
      StripMembers(anns[1..], a);
      assert anns == [anns[0]] + anns[1..];
    }
  }

  /** A list is left alone exactly when it holds no sprinkled annotation. */
  lemma {:induction false} StripUnchanged(anns: seq<Annotation>)
    ensures Strip(anns) == anns <==> NoSprinkled(anns)
  {
    if |anns| > 0 {
      StripUnchanged(anns[1..]);
      if !IsSprinkled(anns[0].desc) {
        assert [anns[0]] + anns[1..] == anns;
      }
    }
  }

  /** The number of annotations that are not sprinkled. */
  function CountKept(anns: seq<Annotation>): nat
  {
    if |anns| == 0 then 0
    else (if IsSprinkled(anns[0].desc) then 0 else 1) + CountKept(anns[1..])
  }

  /** Every non-sprinkled annotation is kept, duplicates included: the
      result is exactly as long as the number of non-sprinkled annotations. */
  lemma {:induction false} StripLength(anns: seq<Annotation>)
    ensures |Strip(anns)| == CountKept(anns)
  {
    if |anns| > 0 {
      StripLength(anns[1..]);
    }
  }

  /** Desprinkling is idempotent. */
  lemma DesprinkleIdempotent(c: ClassFile)
    ensures DesprinkleClass(DesprinkleClass(c)) == DesprinkleClass(c)
  {
    var d := DesprinkleClass(c);
    var dd := DesprinkleClass(d);
    StripUnchanged(d.annotations);
    forall i | 0 <= i < |d.fields|
      ensures dd.fields[i] == d.fields[i]
    {
      StripUnchanged(d.fields[i].annotations);
    }
    forall i | 0 <= i < |d.methods|
      ensures dd.methods[i] == d.methods[i]
    {
      StripUnchanged(d.methods[i].annotations);
    }
  }

  /** A class is returned unchanged exactly when it is already clean. */
  lemma DesprinkleUnchanged(c: ClassFile)
    ensures DesprinkleClass(c) == c <==> Clean(c)
  {
    var d := DesprinkleClass(c);
    StripUnchanged(c.annotations);
    if Clean(c) {
      forall i | 0 <= i < |c.fields|
        ensures d.fields[i] == c.fields[i]
      {
        StripUnchanged(c.fields[i].annotations);
      }
      forall i | 0 <= i < |c.methods|
        ensures d.methods[i] == c.methods[i]
      {
        StripUnchanged(c.methods[i].annotations);
      }
    }
  }

  /** With a codec that reads back what it writes, desprinkled bytes decode to
      a clean class, and desprinkling them again gives the same bytes. */
  lemma DesprinkleBytesIdempotent(codec: Codec, cls: Bytes)
    requires codec.read(cls).Some?
    requires codec.read(codec.write(DesprinkleClass(codec.read(cls).value)))
          == Some(DesprinkleClass(codec.read(cls).value))
    ensures DesprinkleBytes(codec, cls).Some?
    ensures codec.read(DesprinkleBytes(codec, cls).value).Some?
    ensures Clean(codec.read(DesprinkleBytes(codec, cls).value).value)
    ensures DesprinkleBytes(codec, DesprinkleBytes(codec, cls).value) == DesprinkleBytes(codec, cls)
  {
    DesprinkleIdempotent(codec.read(cls).value);
  }
}

=== FILE: prebaker.dfy ===
/** The bake pipeline of `MixinPrebaker.main`: every entry of the input jar is
    dropped (the old manifest), routed through the Mixin transformer and
    desprinkled when it changed (classes), or copied as it is (everything
    else); the manifest of applied configurations is written last. */
module Prebaker {
  import opened Basics
  import Strings
  import Desprinkle
  import Registry

  /** Name of the manifest entry; `APPLIED_MIXIN_CONFIGS_FILENAME`. */
  const ManifestName: string := ".fabric-applied-mixin-configs"

  const ClassSuffix: string := ".class"

  /** A jar entry. `modified` is None when the entry carries no timestamp of
      its own (the jar writer then stamps it). */
  datatype Entry = Entry(name: string, comment: Option<string>, modified: Option<int>, data: Bytes)

  /** The transformer's answer. `Unchanged` stands for returning the very
      array it was given, `Changed` for returning any other array. */
  datatype Transformed = Unchanged | Changed(bytes: Bytes)

  /** One call `transform(requested, actual, input)` of the transformer. */
  datatype Call = Call(requested: string, actual: string, input: Bytes)

  /** The collaborators of a bake: the Mixin transformer, the ASM class
      reader and writer, UTF-8 encoding, and the clock read by `Instant.now()`
      (one instant for the whole run). */
  datatype Env = Env(
    transform: (string, string, Bytes) -> Transformed,
    codec: Desprinkle.Codec,
    utf8: string -> Bytes,
    now: int)

  /** What a bake (or part of one) writes: the output entries in order, the
      transformer calls made, and the "Transformed ..." console lines. */
  datatype Baked = Baked(entries: seq<Entry>, calls: seq<Call>, log: seq<string>)

  /** Why a bake aborts: a transformed class the class reader could not
      parse, or an entry whose name the output stream has already accepted
      (`putNextEntry` refuses a repeated name). */
  datatype BakeError = MalformedClass(entry: string) | DuplicateEntry(entry: string)

  predicate IsClassEntry(name: string) {
    Strings.EndsWith(name, ClassSuffix)
  }

  /** The class name of a class entry: the path without `.class`, with every
      `/` turned into `.`. */
  function ClassName(name: string): (r: string)
    requires IsClassEntry(name)
    ensures |r| == |name| - 6
    ensures forall i :: 0 <= i < |r| ==> r[i] == (if name[i] == '/' then '.' else name[i])
    ensures '/' !in r
  {
    Strings.ReplaceChar(name[..|name| - 6], '/', '.')
  }

  /** The class-name mapping is not injective: two different entries can
      name the same class. */
  lemma ClassNameCollision()
    ensures IsClassEntry("a/b.class") && IsClassEntry("a.b.class")
    ensures ClassName("a/b.class") == ClassName("a.b.class")
  {
    var x, y := ClassName("a/b.class"), ClassName("a.b.class");
    assert |x| == |y| == 3;
    assert x[0] == y[0] && x[1] == y[1] && x[2] == y[2];
  }

  /** It is injective on entries whose path has no `.` before the suffix,
      the usual shape of a class file path. */
  lemma ClassNameInjective(a: string, b: string)
    requires IsClassEntry(a) && IsClassEntry(b)
    requires '.' !in a[..|a| - 6] && '.' !in b[..|b| - 6]
    requires ClassName(a) == ClassName(b)
    ensures a == b
  {
    var sa, sb := a[..|a| - 6], b[..|b| - 6];
    assert |sa| == |sb|;
    forall i | 0 <= i < |sa|
      ensures sa[i] == sb[i]
    {
      assert sa[i] == a[i] && sb[i] == b[i];
      assert ClassName(a)[i] == ClassName(b)[i];
    }
    assert sa == sb;
    assert a == sa + a[|a| - 6..] && b == sb + b[|b| - 6..];
  }

  /** The manifest's own name is not a class entry. */
  lemma ManifestIsNotAClass()
    ensures !IsClassEntry(ManifestName)
  {
    assert ManifestName[|ManifestName| - 6] == 'o';
  }

  /** A kept class entry whose transformed bytes the class reader rejects. */
  predicate Malformed(env: Env, e: Entry) {
    && e.name != ManifestName
    && IsClassEntry(e.name)
    && var cn := ClassName(e.name);
       var t := env.transform(cn, cn, e.data);
       t.Changed? && env.codec.read(t.bytes).None?
  }

  /** Entry `i` is kept and repeats the name of an earlier entry. */
  predicate Duplicate(es: seq<Entry>, i: int)
    requires 0 <= i < |es|
  {
    es[i].name != ManifestName && exists j :: 0 <= j < i && es[j].name == es[i].name
  }

  /** Entry `i` is kept and its name is already taken: by a name `written`
      before the loop reached `es`, or by an earlier entry of `es`. */
  predicate Clash(es: seq<Entry>, written: set<string>, i: int)
    requires 0 <= i < |es|
  {
    (es[i].name != ManifestName && es[i].name in written) || Duplicate(es, i)
  }

  /** Entry `i` aborts the loop when the loop reaches it. */
  predicate Fails(env: Env, es: seq<Entry>, written: set<string>, i: int)
    requires 0 <= i < |es|
  {
    Malformed(env, es[i]) || Clash(es, written, i)
  }

  /** The error entry `i` aborts with. A class is transformed and
      desprinkled before it is written, so an unreadable rewrite is reported
      even when the name repeats too. */
  function ErrorAt(env: Env, es: seq<Entry>, i: int): BakeError
    requires 0 <= i < |es|
  {
    if Malformed(env, es[i]) then MalformedClass(es[i].name) else DuplicateEntry(es[i].name)
  }

  /** The names the output stream holds once entry `e` has been handled. */
  function Written(written: set<string>, e: Entry): set<string>
  {
    if e.name == ManifestName then written else written + {e.name}
  }

  /** What must be written for a kept input entry `e`: the same name; for a
      non-class entry the entry itself; for a class entry the same comment, a
      fresh timestamp, and either the original bytes (transformer left it
      alone) or the desprinkled transformer output. */
  predicate Rewrites(env: Env, e: Entry, o: Entry) {
    && o.name == e.name
    && if !IsClassEntry(e.name) then o == e
       else
         && o.comment == e.comment
         && o.modified == Some(env.now)
         && var cn := ClassName(e.name);
            match env.transform(cn, cn, e.data)
            case Unchanged => o.data == e.data
            case Changed(b) => Desprinkle.DesprinkleBytes(env.codec, b) == Some(o.data)
  }

  /** The input entries that are not the old manifest, in order. */
  function Kept(es: seq<Entry>): (r: seq<Entry>)
    ensures |r| <= |es|
    ensures forall i :: 0 <= i < |r| ==> r[i].name != ManifestName
    ensures forall e :: e in es && e.name != ManifestName <==> e in r
  {
    if |es| == 0 then []
    else (if es[0].name == ManifestName then [] else [es[0]]) + Kept(es[1..])
  }

  /** The class entries of the input, in order. */
  function ClassEntries(es: seq<Entry>): (r: seq<Entry>)
    ensures forall i :: 0 <= i < |r| ==> IsClassEntry(r[i].name) && r[i].name != ManifestName
  {
    if |es| == 0 then []
    else (if IsClassEntry(es[0].name) && es[0].name != ManifestName then [es[0]] else []) + ClassEntries(es[1..])
  }

  /** The transformer call the pipeline makes for a class entry: the derived
      class name in both name slots, and the entry's bytes. */
  function CallFor(e: Entry): Call
    requires IsClassEntry(e.name)
  {
    Call(ClassName(e.name), ClassName(e.name), e.data)
  }

  /** The class name of `e` if it is a kept class the transformer changed. */
  function ChangedName(env: Env, e: Entry): seq<string>
  {
    if e.name != ManifestName && IsClassEntry(e.name)
       && env.transform(ClassName(e.name), ClassName(e.name), e.data).Changed?
    then [ClassName(e.name)] else []
  }

  /** The names of the input classes the transformer changed, in order. */
  function ChangedClasses(env: Env, es: seq<Entry>): seq<string>
  {
    if |es| == 0 then [] else ChangedName(env, es[0]) + ChangedClasses(env, es[1..])
  }

  /** The console line announcing each transformed class. */
  function Announce(names: seq<string>): seq<string>
  {
    seq(|names|, i requires 0 <= i < |names| => "Transformed " + names[i])
  }

  /** One pass of the loop body. */
  function ProcessEntry(env: Env, e: Entry): Result<Baked, BakeError>
  {
    if e.name == ManifestName then Ok(Baked([], [], []))
    else if !IsClassEntry(e.name) then Ok(Baked([e], [], []))
    else
      var cn := ClassName(e.name);
      var call := Call(cn, cn, e.data);
      match env.transform(cn, cn, e.data)
      case Unchanged =>
        Ok(Baked([Entry(e.name, e.comment, Some(env.now), e.data)], [call], []))
      case Changed(out) =>
        match Desprinkle.DesprinkleBytes(env.codec, out)
        case None => Err(MalformedClass(e.name))
        case Some(clean) =>
          Ok(Baked([Entry(e.name, e.comment, Some(env.now), clean)], [call], ["Transformed " + cn]))
  }

  /** The loop over the input entries. `written` holds the names the output
      stream has already accepted; the first malformed class or repeated
      name stops the loop. */
  function ProcessEntries(env: Env, es: seq<Entry>, written: set<string>): Result<Baked, BakeError>
    decreases |es|
  {
    if |es| == 0 then Ok(Baked([], [], []))
    else
      match ProcessEntry(env, es[0])
      case Err(err) => Err(err)
      case Ok(head) =>
        if es[0].name != ManifestName && es[0].name in written then Err(DuplicateEntry(es[0].name))
        else
          match ProcessEntries(env, es[1..], Written(written, es[0]))
          case Err(err) => Err(err)
          case Ok(tail) => Ok(Baked(head.entries + tail.entries, head.calls + tail.calls, head.log + tail.log))
  }

  /** Past the first entry, a clash in `es` is a clash in the rest of `es`
      once the first entry's name is written. */
  lemma ClashShift(es: seq<Entry>, written: set<string>, i: int)
    requires 1 <= i < |es|
    ensures Clash(es, written, i) <==> Clash(es[1..], Written(written, es[0]), i - 1)
  {
    var rest, w := es[1..], Written(written, es[0]);
    assert rest[i - 1] == es[i];
    if Duplicate(es, i) {
      var j :| 0 <= j < i && es[j].name == es[i].name;
      if j > 0 {
        assert rest[j - 1] == es[j];
      }
    }
    if Duplicate(rest, i - 1) {
      var j :| 0 <= j < i - 1 && rest[j].name == rest[i - 1].name;
      assert rest[j] == es[j + 1];
    }
  }

  /** The loop fails exactly when some entry is malformed or repeats a name
      already written, and then it reports the first such entry. */
  lemma {:induction false} ProcessEntriesFails(env: Env, es: seq<Entry>, written: set<string>)
    ensures ProcessEntries(env, es, written).Err? <==> exists i :: 0 <= i < |es| && Fails(env, es, written, i)
    ensures ProcessEntries(env, es, written).Err? ==>
      exists i :: && 0 <= i < |es| && Fails(env, es, written, i)
                  && ProcessEntries(env, es, written).error == ErrorAt(env, es, i)
                  && forall j :: 0 <= j < i ==> !Fails(env, es, written, j)
    decreases |es|
  {
    if |es| > 0 {
      var rest, w := es[1..], Written(written, es[0]);
      ProcessEntriesFails(env, rest, w);
      forall i | 1 <= i < |es|
        ensures Fails(env, es, written, i) <==> Fails(env, rest, w, i - 1)
        ensures ErrorAt(env, es, i) == ErrorAt(env, rest, i - 1)
      {
        ClashShift(es, written, i);
        assert rest[i - 1] == es[i];
      }
      if ProcessEntry(env, es[0]).Err? {
        assert Malformed(env, es[0]) && Fails(env, es, written, 0);
        assert ProcessEntries(env, es, written) == Err(MalformedClass(es[0].name)) == Err(ErrorAt(env, es, 0));
      } else if es[0].name != ManifestName && es[0].name in written {
        assert !Malformed(env, es[0]) && Fails(env, es, written, 0);
        assert ProcessEntries(env, es, written) == Err(DuplicateEntry(es[0].name)) == Err(ErrorAt(env, es, 0));
      } else {
        assert !Fails(env, es, written, 0);
        if exists i :: 0 <= i < |es| && Fails(env, es, written, i) {
          var i :| 0 <= i < |es| && Fails(env, es, written, i);
          assert Fails(env, rest, w, i - 1);
        }
        if ProcessEntries(env, rest, w).Err? {
          var i :| && 0 <= i < |rest| && Fails(env, rest, w, i)
                   && ProcessEntries(env, rest, w).error == ErrorAt(env, rest, i)
                   && forall j :: 0 <= j < i ==> !Fails(env, rest, w, j);
          assert Fails(env, es, written, i + 1);
          forall j | 0 <= j < i + 1
            ensures !Fails(env, es, written, j)
          {
            if j > 0 {
              assert !Fails(env, rest, w, j - 1);
            }
          }
        }
      }
    }
  }

  /** Outputs `outs` are what `Rewrites` demands of inputs `ins`, pairwise. */
  predicate AllRewrite(env: Env, ins: seq<Entry>, outs: seq<Entry>) {
    |ins| == |outs| && forall i :: 0 <= i < |ins| ==> Rewrites(env, ins[i], outs[i])
  }

  lemma AllRewriteAppend(env: Env, ins1: seq<Entry>, outs1: seq<Entry>, ins2: seq<Entry>, outs2: seq<Entry>)
    requires AllRewrite(env, ins1, outs1) && AllRewrite(env, ins2, outs2)
    ensures AllRewrite(env, ins1 + ins2, outs1 + outs2)
  {
    forall i | 0 <= i < |ins1| + |ins2|
      ensures Rewrites(env, (ins1 + ins2)[i], (outs1 + outs2)[i])
    {
      if i >= |ins1| {
        assert (ins1 + ins2)[i] == ins2[i - |ins1|];
        assert (outs1 + outs2)[i] == outs2[i - |ins1|];
      }
    }
  }

  lemma AnnounceAppend(a: seq<string>, b: seq<string>)
    ensures Announce(a + b) == Announce(a) + Announce(b)
  {
  }

  /** One loop pass writes nothing for the old manifest and exactly one
      entry, as `Rewrites` says, for any other entry; it calls the
      transformer for class entries only, and prints a line only for
      classes it changed. */
  lemma ProcessEntryWrites(env: Env, e: Entry)
    requires ProcessEntry(env, e).Ok?
    ensures AllRewrite(env, if e.name == ManifestName then [] else [e], ProcessEntry(env, e).value.entries)
    ensures ProcessEntry(env, e).value.calls
      == if IsClassEntry(e.name) && e.name != ManifestName then [CallFor(e)] else []
    ensures ProcessEntry(env, e).value.log == Announce(ChangedName(env, e))
  {
  }

  /** A successful loop is a successful first pass followed by a successful
      loop over the rest, outputs concatenated. */
  lemma ProcessEntriesCons(env: Env, es: seq<Entry>, written: set<string>)
    requires |es| > 0 && ProcessEntries(env, es, written).Ok?
    ensures ProcessEntry(env, es[0]).Ok? && ProcessEntries(env, es[1..], Written(written, es[0])).Ok?
    ensures var head, tail := ProcessEntry(env, es[0]).value, ProcessEntries(env, es[1..], Written(written, es[0])).value;
      ProcessEntries(env, es, written).value
        == Baked(head.entries + tail.entries, head.calls + tail.calls, head.log + tail.log)
  {
  }

  /** Each kept entry is written once, in input order, as `Rewrites` says. */
  lemma {:induction false} ProcessEntriesWrites(env: Env, es: seq<Entry>, written: set<string>)
    requires ProcessEntries(env, es, written).Ok?
    ensures AllRewrite(env, Kept(es), ProcessEntries(env, es, written).value.entries)
    decreases |es|
  {
    if |es| > 0 {
      var w := Written(written, es[0]);
      ProcessEntriesCons(env, es, written);
      ProcessEntriesWrites(env, es[1..], w);
      ProcessEntryWrites(env, es[0]);
      var k0 := if es[0].name == ManifestName then [] else [es[0]];
      assert Kept(es) == k0 + Kept(es[1..]);
      AllRewriteAppend(env, k0, ProcessEntry(env, es[0]).value.entries,
        Kept(es[1..]), ProcessEntries(env, es[1..], w).value.entries);
    }
  }

  /** The transformer calls for the class entries of `es`, one each, in order. */
  function ClassCalls(es: seq<Entry>): seq<Call>
  {
    var ce := ClassEntries(es);
    seq(|ce|, i requires 0 <= i < |ce| => CallFor(ce[i]))
  }

  lemma ClassCallsCons(es: seq<Entry>)
    requires |es| > 0
    ensures ClassCalls(es)
      == (if IsClassEntry(es[0].name) && es[0].name != ManifestName then [CallFor(es[0])] else [])
         + ClassCalls(es[1..])
  {
    var c0 := if IsClassEntry(es[0].name) && es[0].name != ManifestName then [es[0]] else [];
    assert ClassEntries(es) == c0 + ClassEntries(es[1..]);
  }

  /** The transformer is called once per class entry, in input order, with
      the class name in both name slots, and never for other entries. */
  lemma {:induction false} ProcessEntriesCalls(env: Env, es: seq<Entry>, written: set<string>)
    requires ProcessEntries(env, es, written).Ok?
    ensures ProcessEntries(env, es, written).value.calls == ClassCalls(es)
    decreases |es|
  {
    if |es| > 0 {
      ProcessEntriesCons(env, es, written);
      ProcessEntriesCalls(env, es[1..], Written(written, es[0]));
      ProcessEntryWrites(env, es[0]);
      ClassCallsCons(es);
    }
  }

  /** One "Transformed" line is printed per changed class, in input order,
      and none for classes the transformer left alone. */
  lemma {:induction false} ProcessEntriesLog(env: Env, es: seq<Entry>, written: set<string>)
    requires ProcessEntries(env, es, written).Ok?
    ensures ProcessEntries(env, es, written).value.log == Announce(ChangedClasses(env, es))
    decreases |es|
  {
    if |es| > 0 {
      ProcessEntriesCons(env, es, written);
      ProcessEntriesLog(env, es[1..], Written(written, es[0]));
      ProcessEntryWrites(env, es[0]);
      AnnounceAppend(ChangedName(env, es[0]), ChangedClasses(env, es[1..]));
    }
  }

  /** One loop pass writes the entry's own name, unless it is the old manifest. */
  lemma ProcessEntryName(env: Env, e: Entry)
    requires ProcessEntry(env, e).Ok?
    ensures var out := ProcessEntry(env, e).value.entries;
      if e.name == ManifestName then out == [] else |out| == 1 && out[0].name == e.name
  {
  }

  /** The loop writes no name twice, and none the stream already held. */
  lemma {:induction false} ProcessEntriesNames(env: Env, es: seq<Entry>, written: set<string>)
    requires ProcessEntries(env, es, written).Ok?
    ensures var out := ProcessEntries(env, es, written).value.entries;
      && (forall i :: 0 <= i < |out| ==> out[i].name !in written)
      && (forall i, j :: 0 <= i < j < |out| ==> out[i].name != out[j].name)
    decreases |es|
  {
    if |es| > 0 {
      var w := Written(written, es[0]);
      ProcessEntriesCons(env, es, written);
      ProcessEntriesNames(env, es[1..], w);
      ProcessEntryName(env, es[0]);
      var head := ProcessEntry(env, es[0]).value.entries;
      var tail := ProcessEntries(env, es[1..], w).value.entries;
      var out := head + tail;
      assert out == ProcessEntries(env, es, written).value.entries;
      assert |head| == 0 || (|head| == 1 && head[0].name == es[0].name && es[0].name in w);
      forall i | 0 <= i < |out|
        ensures out[i].name !in written
      {
        if i >= |head| {
          assert out[i] == tail[i - |head|];
        }
      }
      forall i, j | 0 <= i < j < |out|
        ensures out[i].name != out[j].name
      {
        assert out[j] == tail[j - |head|];
        if i >= |head| {
          assert out[i] == tail[i - |head|];
        }
      }
    }
  }

  /** At the start of a bake nothing is written, so an entry aborts the
      loop exactly when it is malformed or repeats an earlier kept name. */
  lemma FailsFromStart(env: Env, es: seq<Entry>)
    ensures forall i :: 0 <= i < |es| ==>
      (Fails(env, es, {}, i) <==> Malformed(env, es[i]) || Duplicate(es, i))
  {
  }

  /** The manifest entry: a fresh entry without comment or timestamp whose
      payload is the UTF-8 encoding of the newline-joined configurations. */
  function ManifestEntry(env: Env, configs: seq<string>): Entry
  {
    Entry(ManifestName, None, None, env.utf8(Registry.Serialize(configs)))
  }

  /** The entry loop of `main` followed by the manifest write, for the given
      applied list. */
  function Bake(env: Env, es: seq<Entry>, configs: seq<string>): (r: Result<Baked, BakeError>)
    ensures r.Err? <==> exists i :: 0 <= i < |es| && (Malformed(env, es[i]) || Duplicate(es, i))
    ensures r.Err? ==>
      exists i :: && 0 <= i < |es| && (Malformed(env, es[i]) || Duplicate(es, i))
                  && r.error == ErrorAt(env, es, i)
                  && forall j :: 0 <= j < i ==> !Malformed(env, es[j]) && !Duplicate(es, j)
    ensures r.Ok? ==> |r.value.entries| == |Kept(es)| + 1
    ensures r.Ok? ==> r.value.entries[|r.value.entries| - 1] == ManifestEntry(env, configs)
    ensures r.Ok? ==> forall i :: 0 <= i < |r.value.entries| - 1 ==>
      r.value.entries[i].name != ManifestName && Rewrites(env, Kept(es)[i], r.value.entries[i])
    ensures r.Ok? ==> forall i, j :: 0 <= i < j < |r.value.entries| ==>
      r.value.entries[i].name != r.value.entries[j].name
  {
    ProcessEntriesFails(env, es, {});
    FailsFromStart(env, es);
    match ProcessEntries(env, es, {})
    case Err(err) => Err(err)
    case Ok(body) =>
      ProcessEntriesWrites(env, es, {});
      ProcessEntriesNames(env, es, {});
      Ok(body.(entries := body.entries + [ManifestEntry(env, configs)]))
  }

  /** `main` after argument checking and class-loader setup: the applied list
      is reset to the bake list, every element of it is forwarded, and the
      input jar is baked with that list as its manifest. */
  function Prebake(env: Env, reg: Registry.Registry, es: seq<Entry>,
                   common: seq<string>, client: seq<string>, server: seq<string>)
    : (r: (Registry.Registry, Result<Baked, BakeError>))
    ensures r.0.applied == Some(Registry.BakeConfigs(common, client, server))
    ensures r.0.forwarded == reg.forwarded + Registry.BakeConfigs(common, client, server)
    ensures r.1.Ok? ==>
      && |r.1.value.entries| >= 1
      && r.1.value.entries[|r.1.value.entries| - 1].data == env.utf8(Registry.Serialize(r.0.applied.value))
  {
    var started := Registry.StartBake(reg, common, client, server);
    (started, Bake(env, es, started.applied.value))
  }

  /** The manifest of a successful bake reads back as the bake list, given a
      decoder that undoes the encoder on it, when the mods' identifiers are
      non-empty and newline-free. */
  lemma ManifestReadsBack(env: Env, reg: Registry.Registry, es: seq<Entry>,
                          common: seq<string>, client: seq<string>, server: seq<string>,
                          decode: Bytes -> string)
    requires Registry.Storable(common) && Registry.Storable(client) && Registry.Storable(server)
    requires var text := Registry.Serialize(Registry.BakeConfigs(common, client, server));
      decode(env.utf8(text)) == text
    requires Prebake(env, reg, es, common, client, server).1.Ok?
    ensures var out := Prebake(env, reg, es, common, client, server).1.value.entries;
      Registry.OnFabricLoad(reg, Some(decode(out[|out| - 1].data))).applied
        == Some(Registry.BakeConfigs(common, client, server))
  {
    Registry.LoadBakedManifest(reg, common, client, server, "");
  }

  /** Two resources under one name: the output stream refuses the second
      `putNextEntry`, so the bake aborts naming it and no manifest is
      written. */
  lemma RepeatedNameAborts(env: Env, x: Bytes, y: Bytes, configs: seq<string>)
    ensures Bake(env, [Entry("r.txt", None, None, x), Entry("r.txt", None, None, y)], configs)
      == Err(DuplicateEntry("r.txt"))
  {
    var e1, e2 := Entry("r.txt", None, None, x), Entry("r.txt", None, None, y);
    var es := [e1, e2];
    assert !IsClassEntry("r.txt") && "r.txt" != ManifestName;
    assert ProcessEntry(env, e2) == Ok(Baked([e2], [], []));
    assert es[1..] == [e2];
    assert Written({}, e1) == {"r.txt"};
    assert ProcessEntries(env, [e2], {"r.txt"}) == Err(DuplicateEntry("r.txt"));
    assert ProcessEntries(env, es, {}) == Err(DuplicateEntry("r.txt"));
  }

  /** Prepending an entry to a successful loop. */
  lemma ProcessEntriesPrepend(env: Env, e: Entry, es: seq<Entry>, written: set<string>)
    requires ProcessEntry(env, e).Ok? && !(e.name != ManifestName && e.name in written)
    requires ProcessEntries(env, es, Written(written, e)).Ok?
    ensures var head, tail := ProcessEntry(env, e).value, ProcessEntries(env, es, Written(written, e)).value;
      ProcessEntries(env, [e] + es, written)
        == Ok(Baked(head.entries + tail.entries, head.calls + tail.calls, head.log + tail.log))
  {
    assert ([e] + es)[0] == e;
    assert ([e] + es)[1..] == es;
  }

  /** A loop pass over a class the transformer leaves alone keeps its bytes. */
  lemma ProcessUnchangedClass(env: Env, e: Entry)
    requires IsClassEntry(e.name) && e.name != ManifestName
    requires env.transform(ClassName(e.name), ClassName(e.name), e.data) == Unchanged
    ensures ProcessEntry(env, e) == Ok(Baked([e.(modified := Some(env.now))], [CallFor(e)], []))
  {
  }

  /** A loop pass over a class the transformer rewrites writes the
      desprinkled rewrite and announces the class. */
  lemma ProcessChangedClass(env: Env, e: Entry, out: Bytes, c: Desprinkle.ClassFile)
    requires IsClassEntry(e.name) && e.name != ManifestName
    requires env.transform(ClassName(e.name), ClassName(e.name), e.data) == Changed(out)
    requires env.codec.read(out) == Some(c)
    ensures ProcessEntry(env, e) == Ok(Baked(
      [e.(modified := Some(env.now), data := env.codec.write(Desprinkle.DesprinkleClass(c)))],
      [CallFor(e)], ["Transformed " + ClassName(e.name)]))
  {
  }

  lemma ScenarioNames()
    ensures IsClassEntry("A.class") && ClassName("A.class") == "A"
    ensures IsClassEntry("B.class") && ClassName("B.class") == "B"
    ensures !IsClassEntry("res.txt")
    ensures "A.class" != ManifestName && "B.class" != ManifestName && "res.txt" != ManifestName
  {
    assert ClassName("A.class") == "A";
    assert ClassName("B.class") == "B";
    assert "res.txt"[|"res.txt"| - 6] == 'e';
  }

  /** A bake is its loop followed by the manifest entry. */
  lemma BakeOfLoop(env: Env, es: seq<Entry>, configs: seq<string>, body: Baked)
    requires ProcessEntries(env, es, {}) == Ok(body)
    ensures Bake(env, es, configs) == Ok(body.(entries := body.entries + [ManifestEntry(env, configs)]))
  {
  }

  /** The last two entries of the three-entry jar below. */
  lemma ScenarioTail(env: Env, b: Bytes, rewritten: Bytes, res: Bytes, cls: Desprinkle.ClassFile)
    requires env.transform("B", "B", b) == Changed(rewritten)
    requires env.codec.read(rewritten) == Some(cls)
    ensures ProcessEntries(env, [Entry("B.class", None, Some(0), b), Entry("res.txt", None, Some(0), res)], {"A.class"})
      == Ok(Baked(
           [Entry("B.class", None, Some(env.now), env.codec.write(Desprinkle.DesprinkleClass(cls))),
            Entry("res.txt", None, Some(0), res)],
           [Call("B", "B", b)], ["Transformed B"]))
  {
    ScenarioNames();
    var eB, eR := Entry("B.class", None, Some(0), b), Entry("res.txt", None, Some(0), res);
    ProcessChangedClass(env, eB, rewritten, cls);
    var outB := Entry("B.class", None, Some(env.now), env.codec.write(Desprinkle.DesprinkleClass(cls)));
    assert "Transformed " + "B" == "Transformed B";
    assert ProcessEntry(env, eB) == Ok(Baked([outB], [Call("B", "B", b)], ["Transformed B"]));
    var nothing: seq<Entry> := [];
    var noCalls: seq<Call>, noLog: seq<string> := [], [];
    var afterB: set<string> := {"A.class", "B.class"};
    assert Written({"A.class"}, eB) == afterB;
    assert ProcessEntries(env, nothing, Written(afterB, eR)) == Ok(Baked([], [], []));
    assert ProcessEntry(env, eR) == Ok(Baked([eR], [], []));
    assert "res.txt" !in afterB;
    ProcessEntriesPrepend(env, eR, nothing, afterB);
    assert [eR] + nothing == [eR] && noCalls + noCalls == noCalls && noLog + noLog == noLog;
    assert ProcessEntries(env, [eR], afterB) == Ok(Baked([eR], [], []));
    assert "B.class" !in {"A.class"};
    ProcessEntriesPrepend(env, eB, [eR], {"A.class"});
    assert [eB] + [eR] == [eB, eR];
    assert [outB] + [eR] == [outB, eR];
    assert [Call("B", "B", b)] + noCalls == [Call("B", "B", b)];
    assert ["Transformed B"] + noLog == ["Transformed B"];
  }

  /** The loop over the three-entry jar below. */
  lemma ScenarioLoop(env: Env, a: Bytes, b: Bytes, rewritten: Bytes, res: Bytes, cls: Desprinkle.ClassFile)
    requires env.transform("A", "A", a) == Unchanged
    requires env.transform("B", "B", b) == Changed(rewritten)
    requires env.codec.read(rewritten) == Some(cls)
    ensures ProcessEntries(env, [Entry("A.class", None, Some(0), a), Entry("B.class", None, Some(0), b),
                                 Entry("res.txt", None, Some(0), res)], {})
      == Ok(Baked(
           [Entry("A.class", None, Some(env.now), a),
            Entry("B.class", None, Some(env.now), env.codec.write(Desprinkle.DesprinkleClass(cls))),
            Entry("res.txt", None, Some(0), res)],
           [Call("A", "A", a), Call("B", "B", b)], ["Transformed B"]))
  {
    ScenarioNames();
    var eA := Entry("A.class", None, Some(0), a);
    var rest := [Entry("B.class", None, Some(0), b), Entry("res.txt", None, Some(0), res)];
    var outA := Entry("A.class", None, Some(env.now), a);
    var outB := Entry("B.class", None, Some(env.now), env.codec.write(Desprinkle.DesprinkleClass(cls)));
    ScenarioTail(env, b, rewritten, res, cls);
    ProcessUnchangedClass(env, eA);
    assert ProcessEntry(env, eA) == Ok(Baked([outA], [Call("A", "A", a)], []));
    assert Written({}, eA) == {"A.class"};
    ProcessEntriesPrepend(env, eA, rest, {});
    var noLog: seq<string> := [];
    assert [eA] + rest == [eA, rest[0], rest[1]];
    assert [outA] + [outB, rest[1]] == [outA, outB, rest[1]];
    assert [Call("A", "A", a)] + [Call("B", "B", b)] == [Call("A", "A", a), Call("B", "B", b)];
    assert noLog + ["Transformed B"] == ["Transformed B"];
  }

  /** Of the annotations of the rewritten `B` below (two meta annotations,
      then an ordinary one), only the ordinary one survives. */
  lemma ScenarioAnnotations(cls: Desprinkle.ClassFile)
    requires |cls.annotations| == 3
    requires Desprinkle.IsSprinkled(cls.annotations[0].desc) && Desprinkle.IsSprinkled(cls.annotations[1].desc)
    requires !Desprinkle.IsSprinkled(cls.annotations[2].desc)
    ensures Desprinkle.DesprinkleClass(cls).annotations == [cls.annotations[2]]
  {
    var anns := cls.annotations;
    assert anns == [anns[0]] + ([anns[1]] + [anns[2]]);
    assert Desprinkle.Strip([anns[2]]) == [anns[2]];
    assert Desprinkle.Strip(anns) == [anns[2]];
  }

  /** A three-entry jar: `A.class` left alone by the transformer, `B.class`
      rewritten into a class carrying two meta annotations and one ordinary
      annotation, and `res.txt`. The output keeps `A.class` and `res.txt`
      byte for byte, writes `B.class` with only the ordinary annotation, and
      ends with the manifest. */
  lemma ThreeEntryBake(env: Env, a: Bytes, b: Bytes, rewritten: Bytes, res: Bytes,
                       cls: Desprinkle.ClassFile, configs: seq<string>)
    requires env.transform("A", "A", a) == Unchanged
    requires env.transform("B", "B", b) == Changed(rewritten)
    requires env.codec.read(rewritten) == Some(cls)
    requires |cls.annotations| == 3
    requires Desprinkle.IsSprinkled(cls.annotations[0].desc) && Desprinkle.IsSprinkled(cls.annotations[1].desc)
    requires !Desprinkle.IsSprinkled(cls.annotations[2].desc)
    ensures Desprinkle.DesprinkleClass(cls).annotations == [cls.annotations[2]]
    ensures Bake(env, [Entry("A.class", None, Some(0), a), Entry("B.class", None, Some(0), b),
                       Entry("res.txt", None, Some(0), res)], configs)
      == Ok(Baked(
           [Entry("A.class", None, Some(env.now), a),
            Entry("B.class", None, Some(env.now), env.codec.write(Desprinkle.DesprinkleClass(cls))),
            Entry("res.txt", None, Some(0), res),
            ManifestEntry(env, configs)],
           [Call("A", "A", a), Call("B", "B", b)], ["Transformed B"]))
  {
    ScenarioAnnotations(cls);
    ScenarioLoop(env, a, b, rewritten, res, cls);
    var input := [Entry("A.class", None, Some(0), a), Entry("B.class", None, Some(0), b),
                  Entry("res.txt", None, Some(0), res)];
    var body := Baked(
      [Entry("A.class", None, Some(env.now), a),
       Entry("B.class", None, Some(env.now), env.codec.write(Desprinkle.DesprinkleClass(cls))),
       Entry("res.txt", None, Some(0), res)],
      [Call("A", "A", a), Call("B", "B", b)], ["Transformed B"]);
    BakeOfLoop(env, input, configs, body);
    assert body.entries + [ManifestEntry(env, configs)]
        == [body.entries[0], body.entries[1], body.entries[2], ManifestEntry(env, configs)];
  }
}

=== FILE: registry.dfy ===
/** The applied-configuration registry: the static `appliedMixinConfigs` list
    (null until a bake starts or a baked manifest is loaded) together with the
    trace of identifiers forwarded to `Mixins.addConfiguration`. */
module Registry {
  import opened Basics
  import Strings

  /** The three configurations every bake starts from. */
  const FixedConfigs: seq<string> :=
    ["fabricmc.mixins.common.json", "fabricmc.mixins.client.json", "fabricmc.mixins.server.json"]

  /** Line separator of the manifest. */
  const Newline: char := '\n'

  /** `applied` is the list (None while it is null); `forwarded` lists every
      identifier handed to the transformer's own registration, in order. */
  datatype Registry = Registry(applied: Option<seq<string>>, forwarded: seq<string>)

  /** The state of a fresh process: no list yet, nothing forwarded. */
  const Initial: Registry := Registry(None, [])

  /** Whether `addConfiguration(id)` hands `id` on to the transformer. */
  predicate Forwards(applied: Option<seq<string>>, id: string) {
    applied.None? || id !in applied.value
  }

  /** `addConfiguration(id)`: forwards unless the list exists and already
      holds `id`; the list itself is never modified. */
  function AddConfiguration(reg: Registry, id: string): (r: Registry)
    ensures r.applied == reg.applied
    ensures reg.applied.None? ==> r.forwarded == reg.forwarded + [id]
    ensures reg.applied.Some? && id !in reg.applied.value ==> r.forwarded == reg.forwarded + [id]
    ensures reg.applied.Some? && id in reg.applied.value ==> r.forwarded == reg.forwarded
  {
    if Forwards(reg.applied, id) then reg.(forwarded := reg.forwarded + [id]) else reg
  }

  /** Calls `addConfiguration` once per identifier, in order. */
  function AddConfigurations(reg: Registry, ids: seq<string>): Registry
    decreases |ids|
  {
    if |ids| == 0 then reg
    else AddConfigurations(AddConfiguration(reg, ids[0]), ids[1..])
  }

  /** The identifiers of `ids` that are not in `list`, in order, duplicates kept. */
  function Missing(ids: seq<string>, list: seq<string>): (r: seq<string>)
    ensures forall x :: x in r <==> x in ids && x !in list
  {
    if |ids| == 0 then []
    else (if ids[0] in list then [] else [ids[0]]) + Missing(ids[1..], list)
  }

  /** Registering a list forwards every identifier when the list is null, and
      otherwise exactly those not already applied; the list never changes. */
  lemma {:induction false} AddConfigurationsForwards(reg: Registry, ids: seq<string>)
    ensures AddConfigurations(reg, ids).applied == reg.applied
    ensures reg.applied.None? ==> AddConfigurations(reg, ids).forwarded == reg.forwarded + ids
    ensures reg.applied.Some? ==>
      AddConfigurations(reg, ids).forwarded == reg.forwarded + Missing(ids, reg.applied.value)
    decreases |ids|
  {
    if |ids| > 0 {
      var next := AddConfiguration(reg, ids[0]);
      AddConfigurationsForwards(next, ids[1..]);
      assert AddConfigurations(reg, ids) == AddConfigurations(next, ids[1..]);
      match reg.applied
      case None =>
        assert reg.forwarded + [ids[0]] + ids[1..] == reg.forwarded + ids;
      case Some(list) =>
        var head := if ids[0] in list then [] else [ids[0]];
        assert next.forwarded == reg.forwarded + head;
        assert Missing(ids, list) == head + Missing(ids[1..], list);
    }
  }

  /** Because the list is never extended, registering an identifier the list
      lacks twice forwards it twice. */
  lemma AddTwiceForwardsTwice(reg: Registry, id: string)
    requires reg.applied.Some? && id !in reg.applied.value
    ensures AddConfiguration(AddConfiguration(reg, id), id).forwarded == reg.forwarded + [id, id]
  {
  }

  /** The list a bake records: the three fixed configurations, then the
      common, client and server configurations of the loaded mods, in that
      order and without removing duplicates. */
  function BakeConfigs(common: seq<string>, client: seq<string>, server: seq<string>): (r: seq<string>)
    ensures |r| == 3 + |common| + |client| + |server|
    ensures r[..3] == FixedConfigs
    ensures r[3..3 + |common|] == common
    ensures r[3 + |common|..3 + |common| + |client|] == client
    ensures r[3 + |common| + |client|..] == server
    ensures multiset(r) == multiset(FixedConfigs) + multiset(common) + multiset(client) + multiset(server)
  {
    FixedConfigs + common + client + server
  }

  /** The start of a bake: the list becomes the bake list and every entry of
      it is forwarded directly, one call per entry, duplicates included. */
  function StartBake(reg: Registry, common: seq<string>, client: seq<string>, server: seq<string>): (r: Registry)
    ensures r.applied == Some(BakeConfigs(common, client, server))
    ensures |r.forwarded| == |reg.forwarded| + 3 + |common| + |client| + |server|
    ensures r.forwarded[..|reg.forwarded|] == reg.forwarded
    ensures r.forwarded[|reg.forwarded|..] == BakeConfigs(common, client, server)
  {
    var configs := BakeConfigs(common, client, server);
    Registry(Some(configs), reg.forwarded + configs)
  }

  /** The manifest text: the identifiers joined with newlines. */
  function Serialize(configs: seq<string>): string
  {
    Strings.Join(configs, Newline)
  }

  /** Reading a manifest text back: `text.split("\n")`. */
  function Deserialize(text: string): seq<string>
  {
    Strings.JavaSplit(text, Newline)
  }

  /** `onFabricLoad`: with the manifest resource present, the list becomes its
      lines; without it, nothing changes. Nothing is forwarded either way. */
  function OnFabricLoad(reg: Registry, resource: Option<string>): (r: Registry)
    ensures r.forwarded == reg.forwarded
    ensures resource.None? ==> r == reg
    ensures resource.Some? ==> r.applied.Some?
    ensures resource.Some? ==> forall i :: 0 <= i < |r.applied.value| ==> Newline !in r.applied.value[i]
    ensures resource.Some? && Newline !in resource.value ==> r.applied == Some([resource.value])
  {
    match resource
    case None => reg
    case Some(text) => reg.(applied := Some(Deserialize(text)))
  }

  /** Identifiers that survive the newline-joined manifest: non-empty and
      newline-free. */
  predicate Storable(ids: seq<string>) {
    forall i :: 0 <= i < |ids| ==> ids[i] != "" && Newline !in ids[i]
  }

  /** Serialising and reading back gives the original list when it is
      non-empty and its identifiers are storable; the empty list comes back
      as one empty identifier. */
  lemma RoundTrip(configs: seq<string>)
    ensures |configs| >= 1 && Storable(configs) ==> Deserialize(Serialize(configs)) == configs
    ensures Deserialize(Serialize([])) == [""]
  {
    if Storable(configs) {
      Strings.SplitJoinRoundTrip(configs, Newline);
    }
    Strings.SplitJoinRoundTrip([], Newline);
  }

  /** Loading the manifest of a bake restores the bake list exactly, after
      which `addConfiguration` forwards precisely the identifiers that were
      not baked. */
  lemma LoadBakedManifest(reg: Registry, common: seq<string>, client: seq<string>, server: seq<string>, id: string)
    requires Storable(common) && Storable(client) && Storable(server)
    ensures OnFabricLoad(reg, Some(Serialize(BakeConfigs(common, client, server)))).applied
         == Some(BakeConfigs(common, client, server))
    ensures var loaded := OnFabricLoad(reg, Some(Serialize(BakeConfigs(common, client, server))));
      AddConfiguration(loaded, id).forwarded == reg.forwarded + (if id in BakeConfigs(common, client, server) then [] else [id])
  {
    var configs := BakeConfigs(common, client, server);
    assert Storable(configs) by {
      forall i | 0 <= i < |configs|
        ensures configs[i] != "" && Newline !in configs[i]
      {
        if i < 3 {
          assert configs[i] == FixedConfigs[i];
        } else if i < 3 + |common| {
          assert configs[i] == common[i - 3];
        } else if i < 3 + |common| + |client| {
          assert configs[i] == client[i - 3 - |common|];
        } else {
          assert configs[i] == server[i - 3 - |common| - |client|];
        }
      }
    }
    RoundTrip(configs);
  }
}

=== FILE: strings.dfy ===
/** The few java.lang.String operations the prebaker relies on, on `seq<char>`. */
module Strings {

  /** `s.startsWith(prefix)`. */
  predicate StartsWith(s: string, prefix: string) {
    |prefix| <= |s| && s[..|prefix|] == prefix
  }

  /** `s.endsWith(suffix)`. */
  predicate EndsWith(s: string, suffix: string) {
    |suffix| <= |s| && s[|s| - |suffix|..] == suffix
  }

  /** `s.replace(from, to)` for single characters: every occurrence is replaced. */
  function ReplaceChar(s: string, from: char, to: char): (r: string)
    ensures |r| == |s|
    ensures forall i :: 0 <= i < |s| ==> r[i] == (if s[i] == from then to else s[i])
    ensures from != to ==> from !in r
  {
    if |s| == 0 then "" else [if s[0] == from then to else s[0]] + ReplaceChar(s[1..], from, to)
  }

  /** Joining with a one-character separator: `Strings.join(pieces, sep)`.
      The empty list joins to the empty string. */
  function Join(pieces: seq<string>, sep: char): string
  {
    if |pieces| == 0 then ""
    else if |pieces| == 1 then pieces[0]
    else pieces[0] + [sep] + Join(pieces[1..], sep)
  }

  /** Every piece between separators, empty pieces included: a string with
      k separators has k + 1 pieces. */
  function Pieces(s: string, sep: char): (r: seq<string>)
    ensures |r| >= 1
    ensures forall i :: 0 <= i < |r| ==> sep !in r[i]
  {
    if |s| == 0 then [""]
    else
      var rest := Pieces(s[1..], sep);
      if s[0] == sep then [""] + rest
      else [[s[0]] + rest[0]] + rest[1..]
  }

  /** Removes every empty string at the end of the list. */
  function DropTrailingEmpty(xs: seq<string>): (r: seq<string>)
    ensures |r| <= |xs|
    ensures r == xs[..|r|]
    ensures |r| == 0 || r[|r| - 1] != ""
    ensures forall i :: |r| <= i < |xs| ==> xs[i] == ""
  {
    if |xs| == 0 then []
    else if xs[|xs| - 1] == "" then DropTrailingEmpty(xs[..|xs| - 1])
    else xs
  }

  /** `s.split(regex)` where the regex matches exactly the one character `sep`:
      when `sep` does not occur the result is `[s]` (so `""` splits to `[""]`);
      otherwise the pieces with trailing empty strings discarded. */
  function JavaSplit(s: string, sep: char): (r: seq<string>)
    ensures forall i :: 0 <= i < |r| ==> sep !in r[i]
    ensures sep !in s ==> r == [s]
  {
    if sep !in s then [s] else DropTrailingEmpty(Pieces(s, sep))
  }

  /** A string without the separator is a single piece. */
  lemma {:induction false} PiecesOfPlain(s: string, sep: char)
    requires sep !in s
    ensures Pieces(s, sep) == [s]
  {
    if |s| > 0 {
      PiecesOfPlain(s[1..], sep);
      assert [s[0]] + s[1..] == s;
    }
  }

  /** Splitting a string that starts with a separator-free piece and a
      separator yields that piece followed by the pieces of the rest. */
  lemma {:induction false} PiecesOfCons(a: string, sep: char, t: string)
    requires sep !in a
    ensures Pieces(a + [sep] + t, sep) == [a] + Pieces(t, sep)
  {
    if |a| > 0 {
      PiecesOfCons(a[1..], sep, t);
      assert (a + [sep] + t)[1..] == a[1..] + [sep] + t;
      assert [a[0]] + a[1..] == a;
    } else {
      assert a + [sep] + t == [sep] + t;
      assert ([sep] + t)[1..] == t;
    }
  }

  /** Splitting undoes joining at the level of raw pieces. */
  lemma {:induction false} PiecesOfJoin(pieces: seq<string>, sep: char)
    requires |pieces| >= 1
    requires forall i :: 0 <= i < |pieces| ==> sep !in pieces[i]
    ensures Pieces(Join(pieces, sep), sep) == pieces
  {
    if |pieces| == 1 {
      PiecesOfPlain(pieces[0], sep);
    } else {
      PiecesOfJoin(pieces[1..], sep);
      PiecesOfCons(pieces[0], sep, Join(pieces[1..], sep));
      assert [pieces[0]] + pieces[1..] == pieces;
    }
  }

  /** Joining two or more pieces puts the separator into the result. */
  lemma JoinHasSeparator(pieces: seq<string>, sep: char)
    requires |pieces| >= 2
    ensures sep in Join(pieces, sep)
  {
    var j := Join(pieces, sep);
    assert j[|pieces[0]|] == sep;
  }

  /** Reading a joined list back with `JavaSplit` returns exactly the original
      list if and only if the list is a single piece, or has a non-empty last
      piece; an empty list comes back as `[""]`. */
  lemma {:induction false} SplitJoinRoundTrip(pieces: seq<string>, sep: char)
    requires forall i :: 0 <= i < |pieces| ==> sep !in pieces[i]
    ensures JavaSplit(Join(pieces, sep), sep) == pieces
        <==> (|pieces| == 1 || (|pieces| >= 2 && pieces[|pieces| - 1] != ""))
    ensures |pieces| == 0 ==> JavaSplit(Join(pieces, sep), sep) == [""]
  {
    if |pieces| == 0 {
      assert Join(pieces, sep) == "";
    } else if |pieces| == 1 {
      assert Join(pieces, sep) == pieces[0];
    } else {
      JoinHasSeparator(pieces, sep);
      PiecesOfJoin(pieces, sep);
      var r := JavaSplit(Join(pieces, sep), sep);
      assert r == DropTrailingEmpty(pieces);
    }
  }
}
